=== FILE: README.md ===
# Todo list: state manager, storage gateway and UI decision rules

A Dafny model of the logic of a client-side todo-list application. The
application is written in React. The model covers:

- the **todo state manager** (`useTodo`). It keeps an ordered list of records
  `{id, title, is_Done}` and offers `addTodo`, `updateTodo`,
  `toggleTodoStatus` and `deleteTodo`. Each operation is a pure function from
  the previous list to the next one (module `UseTodo`).
- the **storage gateway** (`getLocalData` / `setLocalData`). It reads the list
  from the `todoData` key and checks its shape; it writes the list back, and
  writes `[]` if the write fails (module `LocalStorage`).
- the **hook as a whole**. The list and the stored text travel together. The
  list is seeded from storage on mount and saved after each call that
  replaces it (module `Session`).
- the **tab filter** (`all` / `pending` / `completed`) and the empty-list
  message rule of the list view (module `TodoFilter`).
- the **item editor** (edit, save, cancel, toggle, delete with confirmation,
  alert) and the **add form**. Both are pure state transitions that return
  the manager call they make, if any (modules `EachTodo`, `TodoForm`).

`String.prototype.trim` is modelled over the ECMAScript WhiteSpace and
LineTerminator code points (module `Text`). `Array.prototype.filter` is the
order-preserving `Seqs.Filter`.

The model follows the code as written, including where it is looser than
the application's stated intent:
- records carry `is_Done`, not `done`;
- `updateTodo` stores any title it is given, blank ones included. Only the
  item editor keeps blank titles out;
- the load-time check accepts blank titles and duplicate ids;
- `deleteTodo` removes every record with the id. "Exactly one record fewer"
  holds only when ids are unique (`UseTodo.DeleteRemovesOne`).

## Model

| member | source | states |
|---|---|---|
| Text.Trim | src/hooks/useTodo.jsx:35-42 | the trimmed title has no whitespace at either end, is the input with only whitespace cut from the ends, and is empty exactly when the input is blank |
| Seqs.Filter | src/components/Todo.jsx:34 | `filter` keeps exactly the elements that pass, in their original order (a subsequence), never more than the input |
| Seqs.FilterCounts | src/components/Todo.jsx:34 | every element that passes is kept as often as it occurs in the input; every other element is dropped entirely |
| UseTodo.AddTodo | src/hooks/useTodo.jsx:34-46 | a blank title leaves the list unchanged; otherwise the list grows by one, its head is the record with the given id, the trimmed title (non-empty, no whitespace at either end) and `is_Done = false`, and its tail is the previous list |
| UseTodo.UpdateTodo | src/hooks/useTodo.jsx:56-60 | length, ids, order and flags are kept; records with the id get the new title; every other record is unchanged |
| UseTodo.ToggleTodoStatus | src/hooks/useTodo.jsx:69-73 | length, ids, order and titles are kept; records with the id have their flag flipped; every other record is unchanged |
| UseTodo.DeleteTodo | src/hooks/useTodo.jsx:82-84 | the result holds exactly the records whose id differs, in their original order, and the id no longer occurs |
| UseTodo.DeleteKeepsOthers | src/hooks/useTodo.jsx:82-84 | every record whose id differs is kept as often as it occurred; records with the id are all removed |
| UseTodo.ToggleTwice | src/hooks/useTodo.jsx:69-73 | toggling the same id twice restores the original list |
| UseTodo.UnknownIdIsNoOp | src/hooks/useTodo.jsx:56-84 | update, toggle and delete against an absent id return the list unchanged |
| UseTodo.DeleteRemovesOne | src/hooks/useTodo.jsx:82-84 | with unique ids, deleting a present id shortens the list by exactly one |
| UseTodo.DeleteKeepsUniqueIds | src/hooks/useTodo.jsx:82-84 | deleting never makes ids collide |
| UseTodo.ApplyKeepsUniqueIds | src/hooks/useTodo.jsx:39-84 | if ids are unique and the generated id is fresh, ids are unique after any of the four operations |
| UseTodo.ApplyKeepsWellFormedTitles | src/hooks/useTodo.jsx:34-84 | titles stay trimmed and non-empty under add, toggle and delete, and under an update whose title is itself trimmed and non-empty |
| LocalStorage.ToTodo | src/utils/localStorage.js:20-26 | a well-shaped element yields the record whose id, title and flag are its `id`, `title` and `is_Done` |
| LocalStorage.ValidateItems | src/utils/localStorage.js:20-26 | the elements are accepted iff every one is an object with a string `id`, a string `title` and a boolean `is_Done`; if accepted, each record carries its element's fields, position by position |
| LocalStorage.GetLocalData | src/utils/localStorage.js:8-35 | absent or empty data, a parse failure, a non-array value, or any ill-shaped element yields `[]`; otherwise the records are those of the elements, position by position |
| LocalStorage.EncodeTodo | src/utils/localStorage.js:47 | a record is written as an object with exactly the keys `id`, `title`, `is_Done`, holding its fields |
| LocalStorage.Encode | src/utils/localStorage.js:47 | a list is written as an array of the same length whose elements represent the records in order |
| LocalStorage.SetLocalData | src/utils/localStorage.js:45-51 | a successful write leaves the serialized list; a failed write leaves `"[]"` |
| LocalStorage.ValidateEncode | src/utils/localStorage.js:16-31 | validating the encoding of any list gives that list back |
| LocalStorage.ValidatedPlainDataUnchanged | src/utils/localStorage.js:31 | data that passes validation and whose elements have only the three record keys is returned without loss |
| LocalStorage.LoadAfterSave | src/utils/localStorage.js:8-51 | loading after a successful save gives the saved list; loading after a failed save gives `[]`, never partial data |
| TodoFilter.FilterBy | src/components/Todo.jsx:34-44 | the filtered list is a subsequence of the todos and holds exactly the records the tab keeps under the property read |
| TodoFilter.FilteredTodos | src/components/Todo.jsx:34-44 | reading `is_Done`: pending holds exactly the unfinished records, completed exactly the finished ones, both in original order |
| TodoFilter.ShowsEmptyMessage | src/components/Todo.jsx:92 | the empty-state message is shown iff the filtered list is empty |
| TodoFilter.AllTabShowsEverything | src/components/Todo.jsx:43 | the `all` tab, and any tab string other than `pending` and `completed`, returns the whole list unchanged |
| TodoFilter.PendingCompletedPartition | src/components/Todo.jsx:34-44 | the pending and completed views have lengths summing to the length of the list |
| TodoFilter.AsWrittenIgnoresCompletion | src/components/Todo.jsx:34-41 | as written (reading `isDone`), pending shows every record and completed shows none |
| TodoFilter.AsWrittenMisfilesCompletedTodo | src/components/Todo.jsx:34-41 | a completed record is listed as pending and missing from completed as written, and the other way round once `is_Done` is read |
| TodoFilter.EmptyMessageCorrected | src/components/Todo.jsx:92-98 | reading `is_Done`, the message shows on pending iff every record is done, on completed iff none is, on all iff the list is empty |
| EachTodo.OldTitle | src/components/EachTodo.jsx:42 | the old title is the record's title when that is non-empty, and `Untitled` when it is empty; it is never empty |
| EachTodo.Initial | src/components/EachTodo.jsx:19-22 | an item starts outside editing mode, with no dialog or alert open, editing its old title |
| EachTodo.HandleEditClick | src/components/EachTodo.jsx:29-31 | edit enters editing mode and changes nothing else |
| EachTodo.HandleTitleChange | src/components/EachTodo.jsx:126-128 | typing sets the edited title to the input value and changes nothing else |
| EachTodo.HandleSaveClick | src/components/EachTodo.jsx:40-68 | save always leaves editing mode; it makes a call iff the edit is not blank and differs from the old title (untrimmed comparison), and that call is `updateTodo(todo.id, newTitle.trim())`, whose title is non-empty and trimmed; a blank edit restores the old title with an error alert; an unchanged edit raises a warning |
| EachTodo.HandleCancelPress | src/components/EachTodo.jsx:84-88 | cancel restores the old title and leaves editing mode, keeping alert and dialog state |
| EachTodo.HandleStatusToggle | src/components/EachTodo.jsx:75-77 | the toggle button calls `toggleTodoStatus` with this record's id |
| EachTodo.HandleDeleteClick | src/components/EachTodo.jsx:95-97 | delete only opens the confirmation dialog |
| EachTodo.HandleDeleteConfirmAsWritten | src/components/EachTodo.jsx:104-108 | as written, with `inputRef.current` null the unguarded focus call throws first: no `deleteTodo` call and the dialog stays open; with an attached ref, the call is `deleteTodo(todo.id)` and the dialog closes |
| EachTodo.HandleDeleteCancelAsWritten | src/components/EachTodo.jsx:115-118 | as written, with `inputRef.current` null the state is unchanged and the dialog stays open; with an attached ref, the dialog closes and nothing else changes |
| EachTodo.HandleDeleteConfirm | src/components/EachTodo.jsx:104-108 | with the focus call guarded, confirming calls `deleteTodo` with this record's id, closes the dialog and changes nothing else |
| EachTodo.HandleDeleteCancel | src/components/EachTodo.jsx:115-118 | with the focus call guarded, cancelling closes the dialog and changes nothing else |
| EachTodo.CloseAlert | src/components/EachTodo.jsx:135-137 | closing hides the alert, keeps its message and kind, and leaves editing mode, edited title and dialog as they were |
| EachTodo.Advance | src/components/Todo.jsx:54-63 | after an update or toggle of its own id, the item is re-rendered with the record carrying the new title or the flipped flag, and the same id |
| EachTodo.AdvanceMatchesManager | src/components/Todo.jsx:54-63 | the record an item continues with after its update or toggle is exactly the one the manager's list holds at that position |
| EachTodo.EmittedCalls | src/components/EachTodo.jsx:18-137 | over any sequence of events, an item makes at most one call per event, and every call addresses its own record's id and is never an add |
| EachTodo.RepeatSaveIsWarned | src/components/EachTodo.jsx:40-68 | edit to a new title, save, edit and save again: only one `updateTodo` call is made, because the second save compares against the renamed record |
| EachTodo.ItemNeverDeletesAsWritten | src/components/EachTodo.jsx:95-118 | as written, with the ref never attached (src/components/Todo.jsx:24), no sequence of events on an item emits a `deleteTodo` call |
| EachTodo.DeleteThenConfirmDeletes | src/components/EachTodo.jsx:95-108 | with an attached ref or a guarded focus call, clicking delete and then confirming emits exactly `deleteTodo(todo.id)` |
| EachTodo.SaveAfterCancelIsSilent | src/components/EachTodo.jsx:40-88 | saving right after cancel, or saving an untouched item, makes no call |
| EachTodo.EditTypeSaveRenames | src/components/EachTodo.jsx:29-68 | edit, type a non-blank title that differs from the old one, save: the call is `updateTodo(id, trimmed title)` and every record with that id ends up with the trimmed title |
| EachTodo.SaveKeepsListInvariants | src/components/EachTodo.jsx:66 | an update emitted by save keeps the list's titles trimmed and non-empty and its ids unique |
| TodoForm.HandleSubmit | src/components/TodoForm.jsx:24-33 | an empty field makes no call and stays as it is; any other text is passed untrimmed to `addTodo` and the field is cleared |
| TodoForm.HandleChange | src/components/TodoForm.jsx:41-43 | a change sets the field to exactly the input value |
| TodoForm.TypeThenSubmit | src/components/TodoForm.jsx:24-43 | typing a value and submitting leaves the list unchanged when the value is blank, and otherwise prepends a not-done record with the trimmed value and clears the field |
| Session.Mount | src/hooks/useTodo.jsx:18-25 | the list starts as what `getLocalData` returns, and the slot then holds `setLocalData` of that list: its serialization, or `"[]"` when the write fails |
| Session.MountInSync | src/hooks/useTodo.jsx:18-25 | after mounting with a successful save, storage loads back as the in-memory list, whatever was stored before |
| Session.Dispatch | src/hooks/useTodo.jsx:23-84 | the list becomes the operation's result; after a call that replaces the list the slot holds `setLocalData` of the new list, which is `"[]"` when the write fails; a blank add, which never calls `setTodos`, leaves list and storage untouched |
| Session.DispatchPersists | src/hooks/useTodo.jsx:23-25 | after a call that replaces the list, storage loads back as the new list if the write succeeds and as `[]` if it fails; a blank add leaves storage as it was |
| Session.SyncPreserved | src/hooks/useTodo.jsx:23-25 | storage that agrees with memory keeps agreeing across any sequence of calls whose saves succeed |
| Session.WhitespaceSubmitChangesNothing | src/components/TodoForm.jsx:24-33 | a whitespace-only submit passes the form check, clears the field and calls `addTodo`, which leaves list and storage unchanged |
| Session.AddTrimmedTitle | src/hooks/useTodo.jsx:34-45 | adding a non-empty title without surrounding whitespace prepends it verbatim |
| Session.Scenario | src/hooks/useTodo.jsx:34-84 | add "Buy milk", add "Walk dog", toggle the first, delete the second: the intermediate and final lists are as expected |

## Left out

- Rendering, JSX markup, CSS, tab buttons (`setActiveTab`), the text of the empty-state message, and the focus itself (the guarded `inputRef?.current?.focus()` calls and the focus effect). These are presentation only. The unguarded `inputRef.current.focus()` calls in the delete dialog are modelled, because they throw and end their handlers (see Findings).
- `src/components/ConfirmBox.jsx` and `src/components/Alert.jsx` only render when open. `src/App.jsx` and `src/index.js` only bootstrap the app. `eslint.config.mjs` has no runtime behaviour.
- `JSON.parse` and `JSON.stringify` at the text level are library calls. They are parameters. The round-trip lemmas assume only `RoundTrips`: the text of an encoded list parses back to it, that text is never empty, and `"[]"` parses to the empty array.
- `crypto.randomUUID()` is foreign randomness. The generated id is a parameter, and its freshness is a premise of `UseTodo.ApplyKeepsUniqueIds`.
- `localStorage.getItem` throwing is not modelled. The source returns `[]` for it, exactly as for an absent key. The fallback `setItem('todoData', '[]')` throwing again is not modelled either; the source lets that exception escape.
- LocalStorage.GetLocalData: the source returns the parsed array itself, so accepted elements keep any extra keys. The model returns records holding only `id`, `title` and `is_Done`. `LocalStorage.ValidatedPlainDataUnchanged` shows nothing is lost when elements have only those keys. An extra key named `isDone` would also be seen by the tab filter's `isDone` read. The model's records never carry it, so `TodoFilter.AsWrittenIgnoresCompletion` speaks only of records without that key.
- JSON numbers carry a `real`. Their value never matters here, because only the types of the three record fields are checked.
- React's effect scheduling is reduced to "save after each `setTodos`". Development-mode double invocation of updaters is left out because the updaters are pure.
- Session.SyncPreserved: covers runs where every save succeeds. A failed save is covered call by call in `Session.DispatchPersists`.
- `EachTodo.jsx` also reads `todo.isDone` for the completed style and the "Done"/"Not Done" label (lines 146 and 167). These are rendering, so they are not modelled, but they inherit the finding below.

## Findings

| source | as written | input that shows it | evidently intended | confidence | as-written member | corrected member |
|---|---|---|---|---|---|---|
| src/components/Todo.jsx:34-41 | the tab filter reads `todo.isDone`, but records are created, toggled and validated with `is_Done`, so on every record the app creates the read is `undefined` (a stored element with an extra `isDone` key keeps it, see the `LocalStorage.GetLocalData` line under Left out) | one record with `is_Done = true`: it is listed under `pending` and missing under `completed` | filter on `todo.is_Done` | high; not executed | TodoFilter.AsWrittenIgnoresCompletion | TodoFilter.FilteredTodos |
| src/components/EachTodo.jsx:104-118 | the delete dialog's confirm and cancel handlers call `inputRef.current.focus()` without optional chaining; the ref is created with `useRef(null)` and never attached, so both throw before `deleteTodo` and before the dialog closes | any click on Confirm or Cancel in the delete dialog: nothing is deleted and the dialog stays open | `inputRef?.current?.focus()`, as the save handler does | high; not executed | EachTodo.ItemNeverDeletesAsWritten | EachTodo.DeleteThenConfirmDeletes |


=== FILE: each_todo.dfy ===
/** The local state machine of one list item, `src/components/EachTodo.jsx`.
    Each handler maps the item's local state (editing mode, the title being
    edited, the delete-confirmation flag, the alert) to its next value and
    says which manager call, if any, it makes. */
module EachTodo {
  import opened Wrappers
  import opened Text
  import opened UseTodo

  datatype AlertKind = Error | Warning

  datatype Alert = Alert(isOpen: bool, message: string, kind: AlertKind)

  datatype ItemState = ItemState(
    isEditing: bool,
    newTitle: string,
    showDeleteConfirm: bool,
    alert: Alert)

  /** The next local state and the call made, if any. */
  datatype Step = Step(state: ItemState, call: Option<Call>)

  const EmptyTitleMessage: string := "Todo title cannot be empty"
  const NoChangeMessage: string := "No changes made to todo title"

  /** `todo?.title || 'Untitled'`: an empty title is falsy and is replaced. */
  function OldTitle(todo: Todo): (t: string)
    ensures t != ""
    ensures todo.title != "" ==> t == todo.title
    ensures todo.title == "" ==> t == "Untitled"
  {
    if todo.title != "" then todo.title else "Untitled"
  }

  /** The state a freshly mounted item starts in. */
  function Initial(todo: Todo): (s: ItemState)
    ensures !s.isEditing && !s.showDeleteConfirm && !s.alert.isOpen
    ensures s.newTitle == OldTitle(todo)
  {
    ItemState(false, OldTitle(todo), false, Alert(false, "", Error))
  }

  /** `handleEditClick`: enter editing mode. */
  function HandleEditClick(s: ItemState): (s': ItemState)
    ensures s'.isEditing
    ensures s' == s.(isEditing := true)
  {
    s.(isEditing := true)
  }

  /** `handleTitleChange`: the edited title becomes the input value. */
  function HandleTitleChange(s: ItemState, value: string): (s': ItemState)
    ensures s'.newTitle == value
    ensures s' == s.(newTitle := value)
  {
    s.(newTitle := value)
  }

  /** `handleSaveClick`: a blank edit is rejected with an error alert and the
      old title restored; an edit equal to the old title (compared untrimmed)
      is rejected with a warning; anything else asks the manager to store the
      trimmed title. Every path leaves editing mode. */
  function HandleSaveClick(todo: Todo, s: ItemState): (r: Step)
    ensures !r.state.isEditing
    ensures r.state.showDeleteConfirm == s.showDeleteConfirm
    ensures r.call.Some? <==> !IsBlank(s.newTitle) && s.newTitle != OldTitle(todo)
    ensures IsBlank(s.newTitle) ==>
              && r.state.newTitle == OldTitle(todo)
              && r.state.alert == Alert(true, EmptyTitleMessage, Error)
    ensures !IsBlank(s.newTitle) && s.newTitle == OldTitle(todo) ==>
              && r.state.newTitle == s.newTitle
              && r.state.alert == Alert(true, NoChangeMessage, Warning)
    ensures r.call.Some? ==>
              && r.call.value == Update(todo.id, Trim(s.newTitle))
              && r.call.value.title != "" && IsTrimmed(r.call.value.title)
              && r.state == s.(isEditing := false)
  {
    var oldTitle := OldTitle(todo);
    if "" == Trim(s.newTitle) then
      Step(s.(alert := Alert(true, EmptyTitleMessage, Error), newTitle := oldTitle, isEditing := false), None)
    else if s.newTitle == oldTitle then
      Step(s.(alert := Alert(true, NoChangeMessage, Warning), isEditing := false), None)
    else
      Step(s.(isEditing := false), Some(Update(todo.id, Trim(s.newTitle))))
  }

  /** `handleCancelPress`: restore the old title and leave editing mode. */
  function HandleCancelPress(todo: Todo, s: ItemState): (s': ItemState)
    ensures !s'.isEditing && s'.newTitle == OldTitle(todo)
    ensures s'.alert == s.alert && s'.showDeleteConfirm == s.showDeleteConfirm
  {
    s.(newTitle := OldTitle(todo), isEditing := false)
  }

  /** `handleStatusToggle`: ask the manager to flip this record. */
  function HandleStatusToggle(todo: Todo): (c: Call)
    ensures c.Toggle? && c.id == todo.id
  {
    Toggle(todo.id)
  }

  /** `handleDeleteClick`: open the confirmation dialog; nothing is deleted yet. */
  function HandleDeleteClick(s: ItemState): (s': ItemState)
    ensures s'.showDeleteConfirm
    ensures s' == s.(showDeleteConfirm := true)
  {
    s.(showDeleteConfirm := true)
  }

  /** Whether `inputRef.current` holds an element. `Todo.jsx` creates the
      ref with `useRef(null)` and no element is ever given `ref={inputRef}`
      (the add form ignores the prop), so in the application it stays null. */
  const InputRefAttached: bool := false

  /** `handleDeleteConfirm` as written: `inputRef.current.focus()` comes
      first and, without optional chaining, throws a TypeError when the ref
      is null; the handler then stops before `deleteTodo` and before the
      dialog is closed. */
  function HandleDeleteConfirmAsWritten(todo: Todo, s: ItemState, refAttached: bool): (r: Step)
    ensures !refAttached ==> r.state == s && r.call == None
    ensures refAttached ==> r.call == Some(Delete(todo.id)) && !r.state.showDeleteConfirm
  {
    if !refAttached then Step(s, None)
    else Step(s.(showDeleteConfirm := false), Some(Delete(todo.id)))
  }

  /** `handleDeleteCancel` as written: the same unguarded focus call, so with
      a null ref the dialog stays open. */
  function HandleDeleteCancelAsWritten(s: ItemState, refAttached: bool): (s': ItemState)
    ensures !refAttached ==> s' == s
    ensures refAttached ==> !s'.showDeleteConfirm && s' == s.(showDeleteConfirm := false)
  {
    if !refAttached then s else s.(showDeleteConfirm := false)
  }

  /** `handleDeleteConfirm` with the focus call guarded (`inputRef?.current?.focus()`,
      as the save handler does): ask the manager to delete this record and
      close the dialog. */
  function HandleDeleteConfirm(todo: Todo, s: ItemState): (r: Step)
    ensures r.call == Some(Delete(todo.id))
    ensures !r.state.showDeleteConfirm
    ensures r.state == s.(showDeleteConfirm := false)
  {
    Step(s.(showDeleteConfirm := false), Some(Delete(todo.id)))
  }

  /** `handleDeleteCancel` with the focus call guarded: close the dialog
      without a call. */
  function HandleDeleteCancel(s: ItemState): (s': ItemState)
    ensures !s'.showDeleteConfirm
    ensures s' == s.(showDeleteConfirm := false)
  {
    s.(showDeleteConfirm := false)
  }

  /** A user action on one list item. */
  datatype ItemEvent =
    | EditClick
    | TitleChange(value: string)
    | SaveClick
    | CancelPress
    | StatusToggle
    | DeleteClick
    | DeleteConfirm
    | DeleteCancel
    | AlertClose

  /** One event on the item as written, `refAttached` saying whether
      `inputRef.current` holds an element. */
  function StepItem(todo: Todo, s: ItemState, e: ItemEvent, refAttached: bool): Step {
    match e
    case EditClick => Step(HandleEditClick(s), None)
    case TitleChange(v) => Step(HandleTitleChange(s, v), None)
    case SaveClick => HandleSaveClick(todo, s)
    case CancelPress => Step(HandleCancelPress(todo, s), None)
    case StatusToggle => Step(s, Some(HandleStatusToggle(todo)))
    case DeleteClick => Step(HandleDeleteClick(s), None)
    case DeleteConfirm => HandleDeleteConfirmAsWritten(todo, s, refAttached)
    case DeleteCancel => Step(HandleDeleteCancelAsWritten(s, refAttached), None)
    case AlertClose => Step(CloseAlert(s), None)
  }

  /** The record an item is rendered with after it made `call`: the list
      view re-renders each item from the manager's current list (keyed by
      id), so an update or toggle of this record reaches the item as a new
      `todo` prop while its local state is kept. */
  function Advance(todo: Todo, call: Call): (t: Todo)
    ensures t.id == todo.id
    ensures call.Update? && call.id == todo.id ==> t == todo.(title := call.title)
    ensures call.Toggle? && call.id == todo.id ==> t == todo.(isDone := !todo.isDone)
  {
    match call
    case Update(id, title) => if id == todo.id then todo.(title := title) else todo
    case Toggle(id) => if id == todo.id then todo.(isDone := !todo.isDone) else todo
    case _ => todo
  }

  /** The calls an item makes over a sequence of events, in order. After
      each call the item continues with the record the manager produced;
      after a delete the item is gone and no further event reaches it. */
  function EmittedCalls(todo: Todo, s: ItemState, events: seq<ItemEvent>, refAttached: bool): (r: seq<Call>)
    ensures |r| <= |events|
    ensures forall i :: 0 <= i < |r| ==> !r[i].Add? && r[i].id == todo.id
    decreases |events|
  {
    if |events| == 0 then []
    else
      var step := StepItem(todo, s, events[0], refAttached);
      match step.call
      case None => EmittedCalls(todo, step.state, events[1..], refAttached)
      case Some(c) =>
        if c.Delete? then [c]
        else [c] + EmittedCalls(Advance(todo, c), step.state, events[1..], refAttached)
  }

  /** The record the item shows after an emitted call is the one the
      manager's list holds for that id. */
  lemma AdvanceMatchesManager(todos: seq<Todo>, i: nat, call: Call, freshId: string)
    requires i < |todos|
    requires call.Update? || call.Toggle?
    requires call.id == todos[i].id
    ensures Apply(todos, call, freshId)[i] == Advance(todos[i], call)
  {
  }

  /** Editing to a new title and saving, then saving again without typing,
      makes one update only: the second save compares against the renamed
      record and raises the no-change warning. */
  lemma RepeatSaveIsWarned(todo: Todo, value: string)
    requires todo.title != "" && !IsBlank(value) && IsTrimmed(value) && value != todo.title
    ensures var events := [EditClick, TitleChange(value), SaveClick, EditClick, SaveClick];
            EmittedCalls(todo, Initial(todo), events, InputRefAttached) == [Update(todo.id, value)]
  {
    TrimTrimmed(value);
    var events := [EditClick, TitleChange(value), SaveClick, EditClick, SaveClick];
    var s1 := HandleTitleChange(HandleEditClick(Initial(todo)), value);
    var saved := HandleSaveClick(todo, s1);
    assert saved.call == Some(Update(todo.id, value));
    var t2 := Advance(todo, Update(todo.id, value));
    assert OldTitle(t2) == value;
    var again := HandleSaveClick(t2, HandleEditClick(saved.state));
    assert again.call == None;
    assert events[1..] == [TitleChange(value), SaveClick, EditClick, SaveClick];
    assert events[2..] == [SaveClick, EditClick, SaveClick];
    assert events[3..] == [EditClick, SaveClick];
    assert events[4..] == [SaveClick];
    assert EmittedCalls(t2, HandleEditClick(saved.state), [SaveClick], InputRefAttached) == [];
    assert EmittedCalls(t2, saved.state, [EditClick, SaveClick], InputRefAttached) == [];
    assert EmittedCalls(todo, s1, [SaveClick, EditClick, SaveClick], InputRefAttached) == [Update(todo.id, value)];
  }

  /** As written, with the ref never attached, no sequence of clicks on an
      item ever deletes it: the only delete path throws first. */
  lemma {:induction false} ItemNeverDeletesAsWritten(todo: Todo, s: ItemState, events: seq<ItemEvent>)
    ensures forall i :: 0 <= i < |EmittedCalls(todo, s, events, InputRefAttached)| ==>
              !EmittedCalls(todo, s, events, InputRefAttached)[i].Delete?
    decreases |events|
  {
    if |events| > 0 {
      var step := StepItem(todo, s, events[0], InputRefAttached);
      var next := if step.call.Some? then Advance(todo, step.call.value) else todo;
      ItemNeverDeletesAsWritten(next, step.state, events[1..]);
    }
  }

  /** With the ref attached (or the focus call guarded), clicking delete and
      confirming deletes this record. */
  lemma DeleteThenConfirmDeletes(todo: Todo, s: ItemState)
    ensures EmittedCalls(todo, s, [DeleteClick, DeleteConfirm], true) == [Delete(todo.id)]
    ensures HandleDeleteConfirm(todo, HandleDeleteClick(s)).call == Some(Delete(todo.id))
  {
    var s1 := HandleDeleteClick(s);
    assert [DeleteClick, DeleteConfirm][1..] == [DeleteConfirm];
    assert [DeleteConfirm][1..] == [];
    assert EmittedCalls(todo, s1, [DeleteConfirm], true) == [Delete(todo.id)];
  }

  /** `closeAlert`: hide the alert, keeping its message and kind. */
  function CloseAlert(s: ItemState): (s': ItemState)
    ensures !s'.alert.isOpen
    ensures s'.alert.message == s.alert.message && s'.alert.kind == s.alert.kind
    ensures s'.isEditing == s.isEditing && s'.newTitle == s.newTitle
    ensures s'.showDeleteConfirm == s.showDeleteConfirm
  {
    s.(alert := s.alert.(isOpen := false))
  }

  /** Saving right after cancelling, or saving an untouched fresh item,
      never calls the manager. */
  lemma SaveAfterCancelIsSilent(todo: Todo, s: ItemState)
    ensures HandleSaveClick(todo, HandleCancelPress(todo, s)).call == None
    ensures HandleSaveClick(todo, Initial(todo)).call == None
  {
  }

  /** Whatever the item's state, an update it emits keeps the list's titles
      trimmed and non-empty and leaves ids unique. */
  lemma SaveKeepsListInvariants(todos: seq<Todo>, todo: Todo, s: ItemState, freshId: string)
    requires WellFormedTitles(todos) && UniqueIds(todos)
    requires freshId !in Ids(todos)
    ensures var r := HandleSaveClick(todo, s);
            r.call.Some? ==>
              && WellFormedTitles(Apply(todos, r.call.value, freshId))
              && UniqueIds(Apply(todos, r.call.value, freshId))
  {
    var r := HandleSaveClick(todo, s);
    if r.call.Some? {
      ApplyKeepsWellFormedTitles(todos, r.call.value, freshId);
      ApplyKeepsUniqueIds(todos, r.call.value, freshId);
    }
  }

  /** Entering edit mode, typing a non-blank title different from the old
      one and saving renames the record: every record with this id ends up
      with the trimmed typed title. */
  lemma EditTypeSaveRenames(todos: seq<Todo>, todo: Todo, s: ItemState, value: string, freshId: string)
    requires !IsBlank(value) && value != OldTitle(todo)
    ensures var r := HandleSaveClick(todo, HandleTitleChange(HandleEditClick(s), value));
            && r.call == Some(Update(todo.id, Trim(value)))
            && forall i :: 0 <= i < |todos| && todos[i].id == todo.id ==>
                 Apply(todos, r.call.value, freshId)[i].title == Trim(value)
  {
  }
}

=== FILE: local_storage.dfy ===
/** The persistence gateway of `src/utils/localStorage.js`. The stored slot
    `localStorage['todoData']` is an optional string; `JSON.parse` and
    `JSON.stringify` are library calls, so they are parameters here, and the
    parsed value is the `Json` datatype below. */
module LocalStorage {
  import opened Wrappers
  import opened UseTodo

  /** A parsed JSON value. Object key order is not observable here, so an
      object is a map (on duplicate keys `JSON.parse` keeps the last). */
  datatype Json =
    | JNull
    | JBool(b: bool)
    | JNumber(n: real)
    | JString(s: string)
    | JArray(items: seq<Json>)
    | JObject(fields: map<string, Json>)

  /** Outcome of `JSON.parse`: `None` when it throws. */
  type Parser = string -> Option<Json>

  /** What `JSON.stringify` returns. */
  type Printer = Json -> string

  const TodoKeys: set<string> := {"id", "title", "is_Done"}

  /** The shape check applied to every element: a truthy object whose `id`
      and `title` are strings and whose `is_Done` is a boolean. Anything that
      is not an object (null, numbers, strings, arrays) has none of these
      properties and fails. */
  predicate ItemOk(item: Json) {
    && item.JObject?
    && "id" in item.fields && item.fields["id"].JString?
    && "title" in item.fields && item.fields["title"].JString?
    && "is_Done" in item.fields && item.fields["is_Done"].JBool?
  }

  /** `item` carries exactly the fields of record `t`. */
  predicate Represents(item: Json, t: Todo) {
    && item.JObject?
    && "id" in item.fields && item.fields["id"] == JString(t.id)
    && "title" in item.fields && item.fields["title"] == JString(t.title)
    && "is_Done" in item.fields && item.fields["is_Done"] == JBool(t.isDone)
  }

  /** The record a well-shaped element stands for. */
  function ToTodo(item: Json): (t: Todo)
    requires ItemOk(item)
    ensures Represents(item, t)
  {
    Todo(item.fields["id"].s, item.fields["title"].s, item.fields["is_Done"].b)
  }

  /** `parsedData.every(...)`: every element passes the shape check; if so,
      the records they stand for. */
  function ValidateItems(items: seq<Json>): (r: Option<seq<Todo>>)
    ensures r.Some? <==> forall i :: 0 <= i < |items| ==> ItemOk(items[i])
    ensures r.Some? ==> |r.value| == |items|
    ensures r.Some? ==> forall i :: 0 <= i < |items| ==> Represents(items[i], r.value[i])
  {
    if |items| == 0 then Some([])
    else if !ItemOk(items[0]) then None
    else
      match ValidateItems(items[1..])
      case None => None
      case Some(rest) => Some([ToTodo(items[0])] + rest)
  }

  /** `getLocalData()`: the stored list, or `[]` when the key is absent or
      empty, when parsing throws, when the parsed value is not an array, or
      when any element fails the shape check. */
  function GetLocalData(data: Option<string>, parse: Parser): (r: seq<Todo>)
    ensures data == None || data == Some("") ==> r == []
    ensures data.Some? && data.value != "" ==>
              match parse(data.value)
              case None => r == []
              case Some(JArray(items)) =>
                if forall i :: 0 <= i < |items| ==> ItemOk(items[i]) then
                  |r| == |items| && forall i :: 0 <= i < |items| ==> Represents(items[i], r[i])
                else r == []
              case Some(_) => r == []
  {
    if data.None? || data.value == "" then []
    else
      match parse(data.value)
      case Some(JArray(items)) => ValidateItems(items).GetOr([])
      case _ => []
  }

  /** The JSON object `JSON.stringify` is given for one record. */
  function EncodeTodo(t: Todo): (item: Json)
    ensures Represents(item, t) && item.fields.Keys == TodoKeys
  {
    JObject(map["id" := JString(t.id), "title" := JString(t.title), "is_Done" := JBool(t.isDone)])
  }

  /** The JSON array a list of records is written as. */
  function Encode(todos: seq<Todo>): (v: Json)
    ensures v.JArray? && |v.items| == |todos|
    ensures forall i :: 0 <= i < |todos| ==> Represents(v.items[i], todos[i])
  {
    JArray(seq(|todos|, i requires 0 <= i < |todos| => EncodeTodo(todos[i])))
  }

  /** `setLocalData(todos)`: the text left under the key. `writeOk` says
      whether `localStorage.setItem` accepted the serialized list; when it
      throws, the empty array text is written instead. */
  function SetLocalData(todos: seq<Todo>, stringify: Printer, writeOk: bool): (stored: string)
    ensures writeOk ==> stored == stringify(Encode(todos))
    ensures !writeOk ==> stored == "[]"
  {
    if writeOk then stringify(Encode(todos)) else "[]"
  }

  /** What the model needs of the JSON library: parsing the text of an
      encoded list gives the encoded list back, that text is never empty,
      and `"[]"` parses to the empty array. */
  ghost predicate RoundTrips(parse: Parser, stringify: Printer) {
    && (forall todos :: parse(stringify(Encode(todos))) == Some(Encode(todos)))
    && (forall todos :: stringify(Encode(todos)) != "")
    && parse("[]") == Some(JArray([]))
  }

  /** An element determines the record it represents. */
  lemma RepresentsUnique(item: Json, t1: Todo, t2: Todo)
    requires Represents(item, t1) && Represents(item, t2)
    ensures t1 == t2
  {
  }

  /** Validating the encoding of any list of records gives that list back. */
  lemma ValidateEncode(todos: seq<Todo>)
    ensures ValidateItems(Encode(todos).items) == Some(todos)
  {
    var items := Encode(todos).items;
    var r := ValidateItems(items);
    assert forall i :: 0 <= i < |items| ==> ItemOk(items[i]);
    forall i | 0 <= i < |todos| ensures r.value[i] == todos[i] {
      RepresentsUnique(items[i], r.value[i], todos[i]);
    }
    assert r.value == todos;
  }

  /** An element with exactly the three record fields is the encoding of the
      record it represents. */
  lemma PlainItemIsEncoding(item: Json, t: Todo)
    requires Represents(item, t) && item.fields.Keys == TodoKeys
    ensures item == EncodeTodo(t)
  {
    var e := EncodeTodo(t);
    forall k | k in TodoKeys ensures item.fields[k] == e.fields[k] {
    }
    assert item.fields == e.fields;
  }

  /** Data that passes validation loses nothing when its elements carry
      exactly the three record fields: writing the validated list produces
      the parsed array again. */
  lemma ValidatedPlainDataUnchanged(items: seq<Json>)
    requires forall i :: 0 <= i < |items| ==> ItemOk(items[i]) && items[i].fields.Keys == TodoKeys
    ensures ValidateItems(items).Some?
    ensures Encode(ValidateItems(items).value) == JArray(items)
  {
    var ts := ValidateItems(items).value;
    var e := Encode(ts).items;
    forall i | 0 <= i < |items| ensures e[i] == items[i] {
      PlainItemIsEncoding(items[i], ts[i]);
    }
    assert e == items;
  }

  /** Round trip through storage: loading what a successful save wrote gives
      back the saved list; after a failed save, loading gives the empty
      list, never partial data. */
  lemma LoadAfterSave(todos: seq<Todo>, parse: Parser, stringify: Printer, writeOk: bool)
    requires RoundTrips(parse, stringify)
    ensures GetLocalData(Some(SetLocalData(todos, stringify, writeOk)), parse) == if writeOk then todos else []
  {
    if writeOk {
      assert parse(stringify(Encode(todos))) == Some(Encode(todos));
      ValidateEncode(todos);
    }
  }
}

=== FILE: seqs.dfy ===
/** Sequence helpers shared by the reducer and the tab filter: the
    order-preserving filter that `Array.prototype.filter` performs, and the
    subsequence relation that states "order kept, nothing invented". */
module Seqs {

  /** `a` can be obtained from `b` by deleting elements (greedy matching). */
  predicate Subsequence<T(==)>(a: seq<T>, b: seq<T>)
    decreases |b|
  {
    if |a| == 0 then true
    else if |b| == 0 then false
    else if a[0] == b[0] then Subsequence(a[1..], b[1..])
    else Subsequence(a, b[1..])
  }

  /** Keeps, in order, exactly the elements of `s` that satisfy `keep`. */
  function Filter<T(==,!new)>(s: seq<T>, keep: T -> bool): (r: seq<T>)
    ensures |r| <= |s|
    ensures forall x :: x in r <==> x in s && keep(x)
    ensures Subsequence(r, s)
  {
    if |s| == 0 then []
    else if keep(s[0]) then [s[0]] + Filter(s[1..], keep)
    else Filter(s[1..], keep)
  }

  /** Filtering keeps every kept element as often as it occurs in `s` and
      drops every other one entirely. */
  lemma {:induction false} FilterCounts<T(!new)>(s: seq<T>, keep: T -> bool)
    ensures forall x :: multiset(Filter(s, keep))[x] == if keep(x) then multiset(s)[x] else 0
  {
    if |s| > 0 {
      FilterCounts(s[1..], keep);
      assert s == [s[0]] + s[1..];
    }
  }

  /** Filtering with a predicate that holds everywhere on `s` keeps `s` whole. */
  lemma {:induction false} FilterAll<T(!new)>(s: seq<T>, keep: T -> bool)
    requires forall x :: x in s ==> keep(x)
    ensures Filter(s, keep) == s
  {
    if |s| > 0 {
      FilterAll(s[1..], keep);
    }
  }

  /** Filtering with a predicate that holds nowhere on `s` yields nothing. */
  lemma {:induction false} FilterNone<T(!new)>(s: seq<T>, keep: T -> bool)
    requires forall x :: x in s ==> !keep(x)
    ensures Filter(s, keep) == []
  {
    if |s| > 0 {
      FilterNone(s[1..], keep);
    }
  }

  /** A predicate and its negation split `s`: the two filtered parts have
      lengths that add up to the whole. */
  lemma {:induction false} FilterComplementLengths<T(!new)>(s: seq<T>, p: T -> bool, q: T -> bool)
    requires forall x :: x in s ==> (q(x) <==> !p(x))
    ensures |Filter(s, p)| + |Filter(s, q)| == |s|
  {
    if |s| > 0 {
      FilterComplementLengths(s[1..], p, q);
    }
  }
}

=== FILE: session.dfy ===
/** The `useTodo` hook as a whole: the in-memory list together with the text
    stored under the `todoData` key. The list is seeded from storage on
    mount, and the persistence effect runs after mount and after every
    `setTodos` call, saving the whole list. */
module Session {
  import opened Wrappers
  import opened Text
  import opened UseTodo
  import opened LocalStorage
  import TodoForm

  datatype Hook = Hook(todos: seq<Todo>, stored: Option<string>)

  /** Whether a call reaches `setTodos`: a blank `addTodo` returns early,
      every other call replaces the list with a new array (even when nothing
      in it changed), which triggers the save effect. */
  predicate SetsTodos(call: Call) {
    !(call.Add? && IsBlank(call.title))
  }

  /** Mounting: `useState(getLocalData)` seeds the list, then the effect
      saves it back. */
  function Mount(stored: Option<string>, parse: Parser, stringify: Printer, writeOk: bool): (h: Hook)
    ensures h.todos == GetLocalData(stored, parse)
    ensures h.stored == Some(SetLocalData(h.todos, stringify, writeOk))
    ensures !writeOk ==> h.stored == Some("[]")
  {
    var todos := GetLocalData(stored, parse);
    Hook(todos, Some(SetLocalData(todos, stringify, writeOk)))
  }

  /** One call into the manager followed, when the list was replaced, by
      the save effect. */
  function Dispatch(h: Hook, call: Call, freshId: string, stringify: Printer, writeOk: bool): (h': Hook)
    ensures h'.todos == Apply(h.todos, call, freshId)
    ensures !SetsTodos(call) ==> h' == h
    ensures SetsTodos(call) ==> h'.stored == Some(SetLocalData(h'.todos, stringify, writeOk))
    ensures SetsTodos(call) && !writeOk ==> h'.stored == Some("[]")
  {
    if SetsTodos(call) then
      var todos := Apply(h.todos, call, freshId);
      Hook(todos, Some(SetLocalData(todos, stringify, writeOk)))
    else h
  }

  /** Storage agrees with memory: loading the stored text gives the list. */
  ghost predicate InSync(h: Hook, parse: Parser) {
    GetLocalData(h.stored, parse) == h.todos
  }

  /** After mounting with a successful save, storage agrees with memory,
      whatever was stored before (garbage included, which loads as `[]`). */
  lemma MountInSync(stored: Option<string>, parse: Parser, stringify: Printer)
    requires RoundTrips(parse, stringify)
    ensures InSync(Mount(stored, parse, stringify, true), parse)
  {
    LoadAfterSave(GetLocalData(stored, parse), parse, stringify, true);
  }

  /** After a call whose save succeeds, storage holds the new list; after a
      call whose save fails, storage holds the empty array; a blank add
      touches neither. */
  lemma DispatchPersists(h: Hook, call: Call, freshId: string, parse: Parser, stringify: Printer, writeOk: bool)
    requires RoundTrips(parse, stringify)
    ensures var h' := Dispatch(h, call, freshId, stringify, writeOk);
            && (SetsTodos(call) && writeOk ==> InSync(h', parse))
            && (SetsTodos(call) && !writeOk ==> GetLocalData(h'.stored, parse) == [])
            && (!SetsTodos(call) ==> h'.stored == h.stored)
  {
    if SetsTodos(call) {
      LoadAfterSave(Apply(h.todos, call, freshId), parse, stringify, writeOk);
    }
  }

  /** A session whose storage is in sync stays in sync across any number of
      calls, provided every save succeeds. */
  lemma {:induction false} SyncPreserved(h: Hook, calls: seq<Call>, ids: seq<string>, parse: Parser, stringify: Printer)
    requires RoundTrips(parse, stringify)
    requires |ids| == |calls|
    requires InSync(h, parse)
    ensures InSync(Run(h, calls, ids, stringify), parse)
    decreases |calls|
  {
    if |calls| > 0 {
      DispatchPersists(h, calls[0], ids[0], parse, stringify, true);
      SyncPreserved(Dispatch(h, calls[0], ids[0], stringify, true), calls[1..], ids[1..], parse, stringify);
    }
  }

  /** Runs calls in order with successful saves; `ids[k]` is the id
      generated for `calls[k]`. */
  function Run(h: Hook, calls: seq<Call>, ids: seq<string>, stringify: Printer): Hook
    requires |ids| == |calls|
    decreases |calls|
  {
    if |calls| == 0 then h
    else Run(Dispatch(h, calls[0], ids[0], stringify, true), calls[1..], ids[1..], stringify)
  }

  /** Whitespace typed into the add form passes the form's emptiness check,
      so the field is cleared and `addTodo` is called, but `addTodo` rejects
      it: the list and storage stay as they were. */
  lemma WhitespaceSubmitChangesNothing(h: Hook, title: string, freshId: string, stringify: Printer, writeOk: bool)
    requires title != "" && IsBlank(title)
    ensures var step := TodoForm.HandleSubmit(title);
            && step.title == ""
            && step.call == Some(Add(title))
            && Dispatch(h, step.call.value, freshId, stringify, writeOk) == h
  {
  }

  /** Adding a title with no whitespace at either end prepends it as is. */
  lemma AddTrimmedTitle(todos: seq<Todo>, freshId: string, title: string)
    requires title != "" && IsTrimmed(title)
    ensures AddTodo(todos, freshId, title) == [Todo(freshId, title, false)] + todos
  {
    TrimTrimmed(title);
    assert !IsBlank(title) by { assert !IsWhitespace(title[0]); }
  }

  /** The walk-through: start empty, add "Buy milk" then "Walk dog" (any two
      titles without surrounding whitespace, receiving two different ids),
      toggle the first, delete the second. */
  lemma Scenario(buy: string, walk: string, m: string, d: string)
    requires buy != "" && IsTrimmed(buy) && walk != "" && IsTrimmed(walk)
    requires m != d
    ensures var s1 := AddTodo([], m, buy);
            var s2 := AddTodo(s1, d, walk);
            var s3 := ToggleTodoStatus(s2, m);
            var s4 := DeleteTodo(s3, d);
            && s2 == [Todo(d, walk, false), Todo(m, buy, false)]
            && s3 == [Todo(d, walk, false), Todo(m, buy, true)]
            && s4 == [Todo(m, buy, true)]
  {
    AddTrimmedTitle([], m, buy);
    AddTrimmedTitle([Todo(m, buy, false)], d, walk);
    var s2 := [Todo(d, walk, false), Todo(m, buy, false)];
    var s3 := ToggleTodoStatus(s2, m);
    assert s3[0] == s2[0];
    assert DeleteTodo(s3, d) == Seqs.Filter(s3[1..], OtherId(d));
  }

  /** The literal titles of the walk-through qualify. */
  lemma ScenarioTitles()
    ensures IsTrimmed("Buy milk") && IsTrimmed("Walk dog")
  {
    var buy := "Buy milk";
    var walk := "Walk dog";
    assert buy[0] == 'B' && buy[7] == 'k';
    assert walk[0] == 'W' && walk[7] == 'g';
  }
}

=== FILE: text.dfy ===
/** The string operations the todo code relies on: JavaScript's
    `String.prototype.trim`, which strips the ECMAScript WhiteSpace and
    LineTerminator code points from both ends, and the "blank" test
    `'' === s.trim()` written throughout the components. */
module Text {

  /** ECMAScript WhiteSpace (TAB, VT, FF, SP, NBSP, ZWNBSP and the Unicode
      space separators) together with the LineTerminator code points. */
  const WhitespaceChars: set<char> := {
    '\U{0009}', '\U{000A}', '\U{000B}', '\U{000C}', '\U{000D}', '\U{0020}',
    '\U{00A0}', '\U{1680}', '\U{2000}', '\U{2001}', '\U{2002}', '\U{2003}',
    '\U{2004}', '\U{2005}', '\U{2006}', '\U{2007}', '\U{2008}', '\U{2009}',
    '\U{200A}', '\U{2028}', '\U{2029}', '\U{202F}', '\U{205F}', '\U{3000}',
    '\U{FEFF}'
  }

  predicate IsWhitespace(c: char) {
    c in WhitespaceChars
  }

  /** Every character of `s` is whitespace (the empty string included). */
  predicate IsBlank(s: string) {
    forall i :: 0 <= i < |s| ==> IsWhitespace(s[i])
  }

  /** Neither end of `s` is whitespace: what `trim` produces. */
  predicate IsTrimmed(s: string) {
    |s| == 0 || (!IsWhitespace(s[0]) && !IsWhitespace(s[|s| - 1]))
  }

  /** `r` is the slice `s[lo..hi]` and everything cut off is whitespace. */
  ghost predicate CutsOnlyWhitespace(s: string, r: string, lo: nat) {
    && lo + |r| <= |s|
    && r == s[lo..lo + |r|]
    && (forall k :: 0 <= k < lo ==> IsWhitespace(s[k]))
    && (forall k :: lo + |r| <= k < |s| ==> IsWhitespace(s[k]))
  }

  /** Number of leading whitespace characters. */
  function LeadingWhitespace(s: string): (n: nat)
    ensures n <= |s|
    ensures forall k :: 0 <= k < n ==> IsWhitespace(s[k])
    ensures n == |s| || !IsWhitespace(s[n])
  {
    if |s| > 0 && IsWhitespace(s[0]) then 1 + LeadingWhitespace(s[1..]) else 0
  }

  /** `s` without its trailing whitespace. */
  function TrimEnd(s: string): (r: string)
    ensures |r| <= |s| && r == s[..|r|]
    ensures forall k :: |r| <= k < |s| ==> IsWhitespace(s[k])
    ensures |r| == 0 || !IsWhitespace(r[|r| - 1])
  {
    if |s| > 0 && IsWhitespace(s[|s| - 1]) then TrimEnd(s[..|s| - 1]) else s
  }

  /** JavaScript `s.trim()`. */
  function Trim(s: string): (r: string)
    ensures IsTrimmed(r)
    ensures CutsOnlyWhitespace(s, r, LeadingWhitespace(s))
    ensures r == "" <==> IsBlank(s)
  {
    TrimEnd(s[LeadingWhitespace(s)..])
  }

  /** Trimming a string that has no whitespace at either end changes
      nothing; in particular trimming is idempotent. */
  lemma TrimTrimmed(s: string)
    requires IsTrimmed(s)
    ensures Trim(s) == s
  {
    assert LeadingWhitespace(s) == 0;
    assert s[0..] == s;
  }

  lemma TrimIdempotent(s: string)
    ensures Trim(Trim(s)) == Trim(s)
  {
    TrimTrimmed(Trim(s));
  }
}

=== FILE: todo_filter.dfy ===
/** The tab filter of `src/components/Todo.jsx`. The active tab is a string
    compared against the `TODO_FILTERS` constants; any other string behaves
    like `all`. Which record property the filter reads is explicit: the
    component as written reads `todo.isDone`, while the app creates, toggles
    and validates records with `is_Done`, so on every record the app creates
    the read gives `undefined`. */
module TodoFilter {
  import opened Seqs
  import opened UseTodo

  const ALL: string := "all"
  const PENDING: string := "pending"
  const COMPLETED: string := "completed"

  /** The property a filter reads for the completion flag. */
  datatype FlagField =
    | CamelIsDone   // `todo.isDone`: absent from the records modelled here, so `undefined` (falsy)
    | SnakeIsDone   // `todo.is_Done`: the property records are created and stored with

  /** The truthiness of the property `field` on record `t`. */
  function ReadFlag(t: Todo, field: FlagField): bool {
    match field
    case CamelIsDone => false
    case SnakeIsDone => t.isDone
  }

  /** The filter callback: pending keeps unflagged records, completed keeps
      flagged ones, any other tab keeps everything. */
  function Shown(activeTab: string, field: FlagField): Todo -> bool {
    (t: Todo) =>
      if PENDING == activeTab then !ReadFlag(t, field)
      else if COMPLETED == activeTab then ReadFlag(t, field)
      else true
  }

  /** `todos.filter(...)` for the active tab, reading `field`. */
  function FilterBy(todos: seq<Todo>, activeTab: string, field: FlagField): (r: seq<Todo>)
    ensures Subsequence(r, todos)
    ensures forall t :: t in r <==> t in todos && Shown(activeTab, field)(t)
  {
    Filter(todos, Shown(activeTab, field))
  }

  /** The filter as the component writes it (reading `todo.isDone`). */
  function FilteredTodosAsWritten(todos: seq<Todo>, activeTab: string): seq<Todo> {
    FilterBy(todos, activeTab, CamelIsDone)
  }

  /** The filter reading the property records actually carry; the rest of
      the model uses this one. */
  function FilteredTodos(todos: seq<Todo>, activeTab: string): (r: seq<Todo>)
    ensures Subsequence(r, todos)
    ensures PENDING == activeTab ==> forall t :: t in r <==> t in todos && !t.isDone
    ensures COMPLETED == activeTab ==> forall t :: t in r <==> t in todos && t.isDone
  {
    FilterBy(todos, activeTab, SnakeIsDone)
  }

  /** `1 > filteredTodos.length`: whether the "No … Todo!" message replaces
      the list. */
  function ShowsEmptyMessage(filtered: seq<Todo>): (empty: bool)
    ensures empty <==> filtered == []
  {
    1 > |filtered|
  }

  /** The `all` tab, and any string that is not one of the other two tabs,
      shows the whole list unchanged, whichever property is read. */
  lemma AllTabShowsEverything(todos: seq<Todo>, activeTab: string, field: FlagField)
    requires activeTab != PENDING && activeTab != COMPLETED
    ensures FilterBy(todos, activeTab, field) == todos
  {
    FilterAll(todos, Shown(activeTab, field));
  }

  /** The pending and completed views split the list: their lengths add up
      to the length of the whole, whichever property is read. */
  lemma PendingCompletedPartition(todos: seq<Todo>, field: FlagField)
    ensures |FilterBy(todos, PENDING, field)| + |FilterBy(todos, COMPLETED, field)| == |todos|
  {
    FilterComplementLengths(todos, Shown(PENDING, field), Shown(COMPLETED, field));
  }

  /** As written, the pending tab shows every record and the completed tab
      shows none, whatever the records' `is_Done` values. */
  lemma AsWrittenIgnoresCompletion(todos: seq<Todo>)
    ensures FilteredTodosAsWritten(todos, PENDING) == todos
    ensures FilteredTodosAsWritten(todos, COMPLETED) == []
  {
    FilterAll(todos, Shown(PENDING, CamelIsDone));
    FilterNone(todos, Shown(COMPLETED, CamelIsDone));
  }

  /** A concrete list that shows the discrepancy: one completed record is
      listed under pending and missing under completed. */
  lemma AsWrittenMisfilesCompletedTodo()
    ensures var todos := [Todo("a", "Buy milk", true)];
            && FilteredTodosAsWritten(todos, PENDING) == todos
            && FilteredTodosAsWritten(todos, COMPLETED) == []
            && FilteredTodos(todos, PENDING) == []
            && FilteredTodos(todos, COMPLETED) == todos
  {
    var todos := [Todo("a", "Buy milk", true)];
    AsWrittenIgnoresCompletion(todos);
    assert FilteredTodos(todos, PENDING) == [] by {
      FilterNone(todos, Shown(PENDING, SnakeIsDone));
    }
    assert FilteredTodos(todos, COMPLETED) == todos by {
      FilterAll(todos, Shown(COMPLETED, SnakeIsDone));
    }
  }

  /** With the corrected read, the empty message shows on the pending tab iff
      every record is completed, and on the completed tab iff none is. */
  lemma EmptyMessageCorrected(todos: seq<Todo>)
    ensures ShowsEmptyMessage(FilteredTodos(todos, PENDING)) <==>
              forall i :: 0 <= i < |todos| ==> todos[i].isDone
    ensures ShowsEmptyMessage(FilteredTodos(todos, COMPLETED)) <==>
              forall i :: 0 <= i < |todos| ==> !todos[i].isDone
    ensures ShowsEmptyMessage(FilteredTodos(todos, ALL)) <==> todos == []
  {
    var p := FilteredTodos(todos, PENDING);
    var c := FilteredTodos(todos, COMPLETED);
    assert forall i :: 0 <= i < |todos| && !todos[i].isDone ==> todos[i] in p;
    assert forall i :: 0 <= i < |todos| && todos[i].isDone ==> todos[i] in c;
    if p != [] {
      assert p[0] in todos && !p[0].isDone;
      var k :| 0 <= k < |todos| && todos[k] == p[0];
    }
    if c != [] {
      assert c[0] in todos && c[0].isDone;
      var k :| 0 <= k < |todos| && todos[k] == c[0];
    }
    AllTabShowsEverything(todos, ALL, SnakeIsDone);
  }
}

=== FILE: todo_form.dfy ===
/** The add form of `src/components/TodoForm.jsx`: its only state is the text
    in the input field. */
module TodoForm {
  import opened Wrappers
  import opened Text
  import opened UseTodo

  /** The field text after an event and the call made, if any. */
  datatype FormStep = FormStep(title: string, call: Option<Call>)

  /** The field starts empty. */
  const InitialTitle: string := ""

  /** `handleSubmit`: an empty field (the only falsy string) does nothing;
      otherwise the raw, untrimmed text goes to `addTodo` and the field is
      cleared. */
  function HandleSubmit(title: string): (r: FormStep)
    ensures title == "" ==> r == FormStep(title, None)
    ensures title != "" ==> r.call == Some(Add(title)) && r.title == ""
  {
    if title == "" then FormStep(title, None)
    else FormStep("", Some(Add(title)))
  }

  /** `handleChange`: the field holds exactly the input value. */
  function HandleChange(title: string, value: string): (title': string)
    ensures title' == value
  {
    value
  }

  /** Typing `value` into the empty field and submitting: a blank value
      leaves the list as it was, anything else puts a record with the
      trimmed value, not done, at the head of the list. */
  lemma TypeThenSubmit(todos: seq<Todo>, value: string, freshId: string)
    ensures var r := HandleSubmit(HandleChange(InitialTitle, value));
            var todos' := if r.call.Some? then Apply(todos, r.call.value, freshId) else todos;
            && (IsBlank(value) ==> todos' == todos)
            && (!IsBlank(value) ==>
                  todos' == [Todo(freshId, Trim(value), false)] + todos && r.title == "")
  {
  }
}

=== FILE: use_todo.dfy ===
/** The todo-list state manager of `src/hooks/useTodo.jsx`. Each of its four
    operations hands React a `prevTodos => …` updater; here each updater is a
    pure function from the previous list to the next one. */
module UseTodo {
  import opened Seqs
  import opened Text

  /** One task record `{id, title, is_Done}`. */
  datatype Todo = Todo(id: string, title: string, isDone: bool)

  /** The ids of a list, position by position. */
  function Ids(todos: seq<Todo>): (r: seq<string>)
    ensures |r| == |todos|
    ensures forall i :: 0 <= i < |todos| ==> r[i] == todos[i].id
  {
    seq(|todos|, i requires 0 <= i < |todos| => todos[i].id)
  }

  /** No two records share an id. */
  predicate UniqueIds(todos: seq<Todo>) {
    forall i, j :: 0 <= i < j < |todos| ==> todos[i].id != todos[j].id
  }

  /** Every title is stored trimmed and non-empty. */
  predicate WellFormedTitles(todos: seq<Todo>) {
    forall i :: 0 <= i < |todos| ==> todos[i].title != "" && IsTrimmed(todos[i].title)
  }

  /** `addTodo(title)`: a blank title is ignored; otherwise a record with the
      trimmed title, `is_Done = false` and the supplied id (the model's
      stand-in for `crypto.randomUUID()`) is prepended. */
  function AddTodo(todos: seq<Todo>, freshId: string, title: string): (r: seq<Todo>)
    ensures IsBlank(title) ==> r == todos
    ensures !IsBlank(title) ==>
              && |r| == |todos| + 1
              && r[0] == Todo(freshId, Trim(title), false)
              && r[0].title != "" && IsTrimmed(r[0].title)
              && r[1..] == todos
  {
    if "" == Trim(title) then todos
    else [Todo(freshId, Trim(title), false)] + todos
  }

  /** `updateTodo(id, updatedTitle)`: every record with that id gets the new
      title; nothing else changes. */
  function UpdateTodo(todos: seq<Todo>, id: string, updatedTitle: string): (r: seq<Todo>)
    ensures |r| == |todos| && Ids(r) == Ids(todos)
    ensures forall i :: 0 <= i < |todos| ==> r[i].isDone == todos[i].isDone
    ensures forall i :: 0 <= i < |todos| && todos[i].id == id ==> r[i].title == updatedTitle
    ensures forall i :: 0 <= i < |todos| && todos[i].id != id ==> r[i] == todos[i]
  {
    seq(|todos|, i requires 0 <= i < |todos| =>
      if todos[i].id == id then todos[i].(title := updatedTitle) else todos[i])
  }

  /** `toggleTodoStatus(id)`: every record with that id has its flag flipped;
      nothing else changes. */
  function ToggleTodoStatus(todos: seq<Todo>, id: string): (r: seq<Todo>)
    ensures |r| == |todos| && Ids(r) == Ids(todos)
    ensures forall i :: 0 <= i < |todos| ==> r[i].title == todos[i].title
    ensures forall i :: 0 <= i < |todos| && todos[i].id == id ==> r[i].isDone != todos[i].isDone
    ensures forall i :: 0 <= i < |todos| && todos[i].id != id ==> r[i] == todos[i]
  {
    seq(|todos|, i requires 0 <= i < |todos| =>
      if todos[i].id == id then todos[i].(isDone := !todos[i].isDone) else todos[i])
  }

  /** The `todo.id !== id` test `deleteTodo` filters with. */
  function OtherId(id: string): Todo -> bool {
    (t: Todo) => t.id != id
  }

  /** `deleteTodo(id)`: the records with that id are filtered out. */
  function DeleteTodo(todos: seq<Todo>, id: string): (r: seq<Todo>)
    ensures forall t :: t in r <==> t in todos && t.id != id
    ensures id !in Ids(r)
    ensures Subsequence(r, todos)
  {
    Filter(todos, OtherId(id))
  }

  /** Delete drops every record with the id and keeps every other record
      exactly as often as it occurred. */
  lemma DeleteKeepsOthers(todos: seq<Todo>, id: string)
    ensures forall t: Todo :: multiset(DeleteTodo(todos, id))[t] ==
                              if t.id != id then multiset(todos)[t] else 0
  {
    FilterCounts(todos, OtherId(id));
  }

  /** A call a component makes into the manager. */
  datatype Call =
    | Add(title: string)
    | Update(id: string, title: string)
    | Toggle(id: string)
    | Delete(id: string)

  /** Applies a call to the list; `freshId` is only used by `Add`. */
  function Apply(todos: seq<Todo>, call: Call, freshId: string): seq<Todo> {
    match call
    case Add(title) => AddTodo(todos, freshId, title)
    case Update(id, title) => UpdateTodo(todos, id, title)
    case Toggle(id) => ToggleTodoStatus(todos, id)
    case Delete(id) => DeleteTodo(todos, id)
  }

  /** Toggling the same id twice restores the original list. */
  lemma ToggleTwice(todos: seq<Todo>, id: string)
    ensures ToggleTodoStatus(ToggleTodoStatus(todos, id), id) == todos
  {
    var once := ToggleTodoStatus(todos, id);
    var twice := ToggleTodoStatus(once, id);
    assert forall i :: 0 <= i < |todos| ==> once[i].id == todos[i].id by {
      assert Ids(once) == Ids(todos);
    }
    assert forall i :: 0 <= i < |todos| ==> twice[i] == todos[i];
  }

  /** Update, toggle and delete against an id no record has return the list
      unchanged. */
  lemma UnknownIdIsNoOp(todos: seq<Todo>, id: string, title: string)
    requires id !in Ids(todos)
    ensures UpdateTodo(todos, id, title) == todos
    ensures ToggleTodoStatus(todos, id) == todos
    ensures DeleteTodo(todos, id) == todos
  {
    assert forall i :: 0 <= i < |todos| ==> todos[i].id != id by {
      forall i | 0 <= i < |todos| ensures todos[i].id != id {
        assert Ids(todos)[i] == todos[i].id;
      }
    }
    FilterAll(todos, OtherId(id));
  }

  /** With unique ids, deleting an id that is present removes exactly one
      record. */
  lemma {:induction false} DeleteRemovesOne(todos: seq<Todo>, id: string)
    requires UniqueIds(todos)
    requires id in Ids(todos)
    ensures |DeleteTodo(todos, id)| == |todos| - 1
  {
    var keep := OtherId(id);
    if todos[0].id == id {
      assert forall t :: t in todos[1..] ==> keep(t);
      FilterAll(todos[1..], keep);
    } else {
      var k :| 0 <= k < |todos| && Ids(todos)[k] == id;
      assert Ids(todos[1..])[k - 1] == id;
      DeleteRemovesOne(todos[1..], id);
    }
  }

  /** Filtering out records cannot create two records with the same id. */
  lemma {:induction false} DeleteKeepsUniqueIds(todos: seq<Todo>, id: string)
    requires UniqueIds(todos)
    ensures UniqueIds(DeleteTodo(todos, id))
  {
    if |todos| > 0 {
      var rest := DeleteTodo(todos[1..], id);
      DeleteKeepsUniqueIds(todos[1..], id);
      if todos[0].id != id {
        assert DeleteTodo(todos, id) == [todos[0]] + rest;
        forall t | t in rest ensures t.id != todos[0].id {
          var k :| 0 <= k < |todos[1..]| && todos[1..][k] == t;
          assert todos[k + 1] == t;
        }
        var r := [todos[0]] + rest;
        forall i, j | 0 <= i < j < |r| ensures r[i].id != r[j].id {
          if i == 0 {
            assert r[j] == rest[j - 1];
          } else {
            assert r[i] == rest[i - 1] && r[j] == rest[j - 1];
          }
        }
      } else {
        assert DeleteTodo(todos, id) == rest;
      }
    }
  }

  /** If ids are unique and `addTodo` receives an id not yet in the list,
      ids remain unique after any call. */
  lemma ApplyKeepsUniqueIds(todos: seq<Todo>, call: Call, freshId: string)
    requires UniqueIds(todos)
    requires freshId !in Ids(todos)
    ensures UniqueIds(Apply(todos, call, freshId))
  {
    match call
    case Add(title) =>
      if !IsBlank(title) {
        var r := AddTodo(todos, freshId, title);
        forall i, j | 0 <= i < j < |r| ensures r[i].id != r[j].id {
          if i == 0 {
            assert r[j] == todos[j - 1];
            assert Ids(todos)[j - 1] == todos[j - 1].id;
          } else {
            assert r[i] == todos[i - 1] && r[j] == todos[j - 1];
          }
        }
      }
    case Update(id, title) =>
      var r := UpdateTodo(todos, id, title);
      assert forall i :: 0 <= i < |r| ==> r[i].id == Ids(todos)[i];
    case Toggle(id) =>
      var r := ToggleTodoStatus(todos, id);
      assert forall i :: 0 <= i < |r| ==> r[i].id == Ids(todos)[i];
    case Delete(id) =>
      DeleteKeepsUniqueIds(todos, id);
  }

  /** Titles stay trimmed and non-empty under add, toggle and delete, and
      under an update whose title is itself trimmed and non-empty (the only
      kind the edit form emits). */
  lemma ApplyKeepsWellFormedTitles(todos: seq<Todo>, call: Call, freshId: string)
    requires WellFormedTitles(todos)
    requires call.Update? ==> call.title != "" && IsTrimmed(call.title)
    ensures WellFormedTitles(Apply(todos, call, freshId))
  {
    match call
    case Add(title) =>
      if !IsBlank(title) {
        var r := AddTodo(todos, freshId, title);
        assert forall i :: 1 <= i < |r| ==> r[i] == todos[i - 1];
      }
    case Update(id, title) =>
    case Toggle(id) =>
    case Delete(id) =>
      var r := DeleteTodo(todos, id);
      forall i | 0 <= i < |r| ensures r[i].title != "" && IsTrimmed(r[i].title) {
        assert r[i] in todos;
      }
  }
}

=== FILE: wrappers.dfy ===
/** Optional values: a stored key that may be absent, a parse that may fail,
    a UI handler that may or may not emit a call. */
module Wrappers {

  datatype Option<+T> = None | Some(value: T) {

    /** Returns the value held in Some, or the default for None. */
    function GetOr(default: T): T {
      match this
      case Some(v) => v
      case None => default
    }
  }
}
